=== FILE: README.md ===
# TFS user manager, modelled in Dafny

The TFS user manager is a console tool for a Team Foundation Server. It
walks the project collections of a configuration server. It lists the
distinct users of every collection's "Project Collection Valid Users"
group, and it can remove one user from every group they belong to, in
every collection. This project models the logic that sits between the
remote calls. The remote server is replaced by a value fetched ahead of
time: a `Server` holds its collections in catalog order and says whether
it offers the team service. Each `Collection` has a name, may have an
identity service, and maps account names to identities. Each identity
lists its members and the groups it is in.

- `Ordering` (`ordering.dfy`): the string order the user list is sorted by,
  an insertion sort with its permutation proof, and the fact that a sorted
  list without duplicates is fixed by its set of names.
- `Catalog` (`catalog.dfy`): the server datatypes and the gate each
  collection passes. An ignored collection is skipped. A missing identity
  service, then a missing team service, ends the whole walk. `Walk` is
  the fold over the collections that listing and removal share.
- `Listing` (`listing.dfy`): `ListUsers`. It starts from an empty cache. It
  drops members whose identity type is
  `Microsoft.TeamFoundation.UnauthenticatedIdentity` or
  `Microsoft.TeamFoundation.Identity`. It appends a unique name only when
  the name is not already present. It sorts only when the walk reaches the
  end.
- `Selector` (`selector.dfy`): the arrow-key scroller. Its index starts at
  -1, and both directions wrap around the cache. The name at the index is
  read after every key, so a first key that is neither an arrow nor escape
  reads index -1.
- `Removal` (`removal.dfy`): the sweep over collections and groups. It is
  written once as a function (`RemoveTarget`) and once as the program's
  nested loop (`RemoveUser`, `AttemptAll`), and the two are proved equal.
  Each group's removal either succeeds or throws with a message, and
  either way the next group is tried.
- `Session` (`session.dfy`): the main menu, the removal-mode prompt, the
  scroller and the pause after a missing service, all as one step
  function. Key presses and typed lines are two separate input streams.
  The program re-enters its menu by recursion. The `R` (return) key of the
  removal prompt opens a menu inside a menu that is still waiting, so every
  such return costs one more `Q` before the program quits.

Three behaviours of the program are easy to miss, and the model keeps them:
- A missing identity or team service does not exit the program. The
  program waits for a key and goes back to the menu, and the model does
  the same.
- The team service is looked up on the configuration server, not per
  collection. The check is still repeated for every collection that is
  not ignored.
- The cache is sorted only when a listing reaches the end. A listing
  halted by a missing service leaves it unsorted (`HaltedListingIsUnsorted`).

The string order is the ordinal lexicographic order on characters. This
is an assumption: the program's `OrderBy` on strings uses the current
culture's comparer.

Keys are the console's key codes: a letter key carries its upper-case
letter whatever the shift state, and keys the program does not react to
are all `Other`.

## Model

| member | source | states |
|---|---|---|
| Ordering.Sort | src/TFSUserManager/Program.cs:137 | the sorted cache is ascending and is a rearrangement of the accumulated names |
| Ordering.PermutationKeepsNoDuplicates | src/TFSUserManager/Program.cs:137 | sorting a cache without duplicates cannot create any |
| Ordering.SortedDistinctIsCanonical | src/TFSUserManager/Program.cs:137 | two sorted duplicate-free lists with the same names are equal |
| Catalog.GateOf | src/TFSUserManager/Program.cs:82-107 | an ignored collection is skipped; otherwise a missing identity service, then a missing team service, halts; otherwise the collection is processed |
| Catalog.Walk | src/TFSUserManager/Program.cs:78-107 | the walk completes if and only if every collection is ignored or has both services; otherwise it ends with the outcome of the first collection that halts, and every collection before that one passed |
| Catalog.WalkConcat | src/TFSUserManager/Program.cs:78-115 | walking two runs of collections equals walking the second from where the first left off, and only if the first completed |
| Listing.Admit | src/TFSUserManager/Program.cs:119-131 | one member keeps the names already gathered in order; its name is added only if its type is not excluded, and a name is never added twice |
| Listing.CollectFrom | src/TFSUserManager/Program.cs:109-132 | a collection without a valid-users group leaves the cache as it is; otherwise the cache grows, without duplicates, by exactly the names its valid-users group offers |
| Listing.CollectMembers | src/TFSUserManager/Program.cs:117-132 | the names gathered from a group are exactly the earlier names plus the unique names of its members of a non-excluded type, with no duplicate introduced |
| Listing.WalkExtends | src/TFSUserManager/Program.cs:128-131 | the walk only appends to the cache and keeps it free of duplicates, on the halting path too |
| Listing.WalkCollects | src/TFSUserManager/Program.cs:76-133 | every gathered name is eligible; a walk that reaches the end has gathered every eligible name |
| Listing.ListUsers | src/TFSUserManager/Program.cs:70-144 | the cache starts empty and never holds duplicates or an ineligible name; the listing completes if and only if no collection halts; a complete listing is sorted and holds every eligible name; a halted one is the unsorted accumulation (its contents: `HaltedListingHoldsEarlierNames`) |
| Listing.HaltedListingHoldsEarlierNames | src/TFSUserManager/Program.cs:78-133 | a listing stopped at the first collection that does not pass holds exactly the eligible names of the collections before it |
| Listing.ExcludedNeverListed | src/TFSUserManager/Program.cs:119-123 | a name carried only by unauthenticated or system identities is never listed |
| Listing.ListingStopsAtHalt | src/TFSUserManager/Program.cs:94-107 | a collection that halts the listing is the last one visited; later collections make no difference and the listing does not complete |
| Listing.SkippedCollectionContributesNothing | src/TFSUserManager/Program.cs:82-115 | removing an ignored collection, or one without a valid-users group, from the server leaves the listing unchanged |
| Listing.CompletedListingIsCanonical | src/TFSUserManager/Program.cs:72-137 | complete listings over servers with the same eligible names are equal, so listing an unchanged server twice gives the same cache |
| Listing.TwoCollectionListing | src/TFSUserManager/Program.cs:109-137 | collections offering "alice" plus a system identity, then "bob", list as ["alice", "bob"] |
| Listing.HaltedListingIsUnsorted | src/TFSUserManager/Program.cs:94-99 | a listing halted by a missing identity service keeps ["bob", "alice"] unsorted |
| Selector.Forward | src/TFSUserManager/Program.cs:190-197 | from -1 or any entry, a forward key gives (index + 1) mod count, inside the cache |
| Selector.Backward | src/TFSUserManager/Program.cs:198-205 | from an entry, a backward key gives (index - 1) mod count; from -1 it gives the last entry |
| Selector.ForwardBackwardInverse | src/TFSUserManager/Program.cs:190-205 | on a selected entry, forward and backward undo each other |
| Selector.Press | src/TFSUserManager/Program.cs:183-210 | escape cancels; a forward key shows the next entry and a backward key the previous one, wrapping; any other key but enter leaves a selected entry shown; enter confirms the entry shown; a read out of range happens exactly when no entry is selected and the key is neither an arrow nor escape |
| Selector.Run | src/TFSUserManager/Program.cs:179-210 | a confirmed name is in the cache; from a selected entry no key sequence reads out of range; from -1 the only read out of range is at -1 |
| Selector.FirstKeyMustMove | src/TFSUserManager/Program.cs:179-207 | a first key that is neither an arrow nor escape reads the cache at -1 |
| Selector.ArrowFirstStaysInRange | src/TFSUserManager/Program.cs:190-207 | after an arrow as the first key, no key sequence reads out of range |
| Selector.ForwardCycles | src/TFSUserManager/Program.cs:190-197 | n forward keys (at most one round) land n entries further on, wrapping once past the end |
| Selector.FullCycleReturns | src/TFSUserManager/Program.cs:190-197 | count forward keys return to the starting entry |
| Removal.AttemptOne | src/TFSUserManager/Program.cs:262-275 | a removal attempt names its collection and group, and is logged as removed exactly when it succeeds, else with the thrown message |
| Removal.Attempts | src/TFSUserManager/Program.cs:260-276 | one attempt per group, in order, whatever the earlier attempts did |
| Removal.AttemptAll | src/TFSUserManager/Program.cs:260-276 | the program's loop over the groups logs exactly one attempt per group |
| Removal.CollectionEvents | src/TFSUserManager/Program.cs:256-281 | where the user's account is unknown, the collection logs only that the user was not found; otherwise it logs one attempt per group the user belongs to, in order |
| Removal.RemoveTarget | src/TFSUserManager/Program.cs:214-284 | an empty name removes nothing; otherwise the sweep completes if and only if no collection halts |
| Removal.RemoveUser | src/TFSUserManager/Program.cs:214-284 | the program's nested loop computes the sweep, and returns early exactly for an empty name |
| Removal.SweepExtends | src/TFSUserManager/Program.cs:223-282 | the sweep only appends to the log |
| Removal.EveryGroupAttempted | src/TFSUserManager/Program.cs:256-277 | in every collection the sweep reaches where the user is found, removal from every one of the user's groups is attempted and logged |
| Removal.IgnoredCollectionLogged | src/TFSUserManager/Program.cs:225-231 | every ignored collection the sweep reaches is logged as ignored |
| Removal.SweepAttemptsOnlyUsersGroups | src/TFSUserManager/Program.cs:223-282 | every attempt the sweep appends is for one of the user's groups, in a reached, non-ignored collection where the user was found |
| Removal.OnlyUsersGroupsAttempted | src/TFSUserManager/Program.cs:214-284 | every attempt in the removal log is the removal of the user from one of its groups, in a collection the sweep reached, did not ignore and found the user in |
| Removal.AbsentUserAttemptsNothing | src/TFSUserManager/Program.cs:278-281 | a user found in no collection gets no removal attempt |
| Removal.FailureInOneGroupContinues | src/TFSUserManager/Program.cs:256-281 | alice in G1 (succeeds) and G2 (throws) in A, absent from B: both attempts are logged and B is still visited |
| Removal.FailuresDoNotAbort | src/TFSUserManager/Program.cs:260-276 | the attempts made, their order and the sweep's outcome are the same as if every removal had succeeded |
| Session.Remove | src/TFSUserManager/Program.cs:214-219 | a removal request keeps the cache; the menu returns, after a pause exactly when the sweep of a non-empty name halted |
| Session.OnKey | src/TFSUserManager/Program.cs:47-210 | `L` at the menu replaces the cache with the new listing, records it, and pauses exactly when that listing halted; `R` at the menu opens the removal prompt; any other key but `Q` leaves the menu as it is; at the prompt `T` waits for a typed name, `S` starts the scroller at -1 over a non-empty cache, `R` returns to the menu with one more menu nested, and any other key is read again; in the scroller a forward key moves to the next entry and a backward key to the previous one, wrapping; escape goes back to the prompt; enter on a selected entry requests the removal of exactly the name shown and pauses exactly when that sweep halted; any key ends a pause; only `L` changes the cache, and it never gains duplicates; only `Q` with no nested menu quits; only `R` at the removal prompt nests a menu; the only crash is reading index -1 |
| Session.OnLine | src/TFSUserManager/Program.cs:162-219 | a typed line is the removal target verbatim: it is logged with its sweep, the cache is kept, and the menu returns, after a pause exactly when the sweep of a non-empty name halted; an empty name removes nothing |
| Session.Run | src/TFSUserManager/Program.cs:40-68 | over any input the scroller stays inside a non-empty cache, the cache stays free of duplicates, and the only crash is at index -1 |
| Session.QuitClosesOneMenu | src/TFSUserManager/Program.cs:47-63 | with p nested menus, p presses of `Q` close them and the next one quits |
| Session.ReturnNeedsExtraQuit | src/TFSUserManager/Program.cs:157-161 | after `R`, `R`, one `Q` leaves the menu open and a second `Q` quits |
| Session.EnterFirstCrashes | src/TFSUserManager/Program.cs:170-207 | selecting and pressing enter at once reads the cache at -1 |

## Left out

- Connection bootstrap in `Main` (URL argument check, connecting, printing the authenticated identity): these are calls to the remote server and console output, with no logic to prove.
- `Log` and every console detail: colours, in-place line erasure, cursor moves. Keys and typed lines are input sequences; log lines are reduced to the `Event` trace of a removal.
- All remote calls (`QueryChildren`, `GetTeamProjectCollection`, `GetService`, `ReadIdentity`, `RemoveMemberFromApplicationGroup`): their answers are fields of the pre-fetched `Server`.
- Reading a member's identity by descriptor is taken to succeed and give the member's unique name. A null answer there would throw an uncaught exception in the listing, which is not modelled.
- Reading a group's identity by descriptor can fail. That failure, like a failed removal, is inside the per-group try/catch and is modelled as `Throws`.
- Remote exceptions outside the per-group catch (connection errors, bad catalog data) end the process; they are not modelled.
- Account-name lookup is an exact map lookup; any case-insensitive matching the server does is not modelled.
- `ReadLine` returning null at end of input behaves like an empty name; only the empty string is modelled.
- A removal does not change the modelled server; only the log of attempts is produced.
- The program's recursion depth and stack use are not modelled; `Session` keeps only the count of menus nested by the removal prompt's `R` key.
- The ignored-collection list is a parameter. The program's list is always empty.
- Ordering.Sort: sorts by the ordinal character order, not the culture-sensitive comparer `OrderBy` uses. A culture comparer can rank two distinct names as equal, and the stable `OrderBy` then keeps their first-seen order, so `CompletedListingIsCanonical`'s claim that the order of collections does not matter holds only under the ordinal order.

=== FILE: catalog.dfy ===
/**
 The remote server as the user manager sees it, fetched ahead of time: the
 project collections in catalog order, each with or without an identity
 service, and the identities each one can read by account name. The walk
 over collections that listing and removal share lives here too.
 */
module Catalog {

  /** Identity type and opaque identifier: how an identity is addressed. */
  datatype Descriptor = Descriptor(identityType: string, identifier: string)

  /** A member of a group, with the unique name reading its descriptor yields. */
  datatype Member = Member(descriptor: Descriptor, uniqueName: string)

  /** What removing the user from one group does: succeed, or throw with a message. */
  datatype Attempt = Succeeds | Throws(message: string)

  /** A group an identity belongs to, with the outcome of removing it from there. */
  datatype Group = Group(descriptor: Descriptor, removal: Attempt)

  /** An identity read with expanded membership: its members and the groups it is in. */
  datatype Identity = Identity(descriptor: Descriptor, uniqueName: string, members: seq<Member>, memberOf: seq<Group>)

  /** A project collection; `accounts` answers a read by account name. */
  datatype Collection = Collection(name: string, hasIdentityService: bool, accounts: map<string, Identity>)

  /** The configuration server: its collections and whether it offers the team service. */
  datatype Server = Server(collections: seq<Collection>, hasTeamService: bool)

  /** How a walk over the collections ended. */
  datatype Outcome = Completed | IdentityServiceMissing(collection: string) | TeamServiceMissing(collection: string)

  /** What the walk does with one collection before touching its identities. */
  datatype Gate = Skip | Halt(outcome: Outcome) | Proceed

  /**
   Ignored collections are skipped; otherwise a missing identity service,
   then a missing team service, stops the whole walk.
   */
  function GateOf(c: Collection, hasTeamService: bool, ignored: seq<string>): (g: Gate)
    ensures g.Skip? <==> c.name in ignored
    ensures g.Proceed? <==> c.name !in ignored && c.hasIdentityService && hasTeamService
    ensures g == Halt(IdentityServiceMissing(c.name)) <==> c.name !in ignored && !c.hasIdentityService
    ensures g == Halt(TeamServiceMissing(c.name)) <==> c.name !in ignored && c.hasIdentityService && !hasTeamService
  {
    if c.name in ignored then Skip
    else if !c.hasIdentityService then Halt(IdentityServiceMissing(c.name))
    else if !hasTeamService then Halt(TeamServiceMissing(c.name))
    else Proceed
  }

  /** The walk passes `c` without stopping. */
  predicate Passes(c: Collection, hasTeamService: bool, ignored: seq<string>) {
    c.name in ignored || (c.hasIdentityService && hasTeamService)
  }

  /** Where a walk ended and what it accumulated on the way. */
  datatype Visit<A> = Visit(outcome: Outcome, result: A)

  /**
   Visits the collections in order, threading an accumulator: `skip` sees
   each ignored collection's name, `visit` each collection that passes the
   gate; the first collection that halts ends the walk with the value
   accumulated so far.
   */
  function Walk<A>(cs: seq<Collection>, hasTeamService: bool, ignored: seq<string>,
                   skip: (string, A) -> A, visit: (Collection, A) -> A, acc: A): (r: Visit<A>)
    ensures r.outcome.Completed? <==> forall i :: 0 <= i < |cs| ==> Passes(cs[i], hasTeamService, ignored)
    ensures !r.outcome.Completed? ==> HaltsAt(cs, hasTeamService, ignored, r.outcome)
    decreases |cs|
  {
    if |cs| == 0 then Visit(Completed, acc)
    else
      match GateOf(cs[0], hasTeamService, ignored)
      case Halt(o) => Visit(o, acc)
      case Skip =>
        var r := Walk(cs[1..], hasTeamService, ignored, skip, visit, skip(cs[0].name, acc));
        WalkTail(cs, hasTeamService, ignored, r.outcome);
        r
      case Proceed =>
        var r := Walk(cs[1..], hasTeamService, ignored, skip, visit, visit(cs[0], acc));
        WalkTail(cs, hasTeamService, ignored, r.outcome);
        r
  }

  /** Some collection halts the walk with `o`, and every collection before it passes. */
  ghost predicate HaltsAt(cs: seq<Collection>, hasTeamService: bool, ignored: seq<string>, o: Outcome) {
    exists i :: 0 <= i < |cs| && GateOf(cs[i], hasTeamService, ignored) == Halt(o)
                && forall j :: 0 <= j < i ==> Passes(cs[j], hasTeamService, ignored)
  }

  lemma WalkTail(cs: seq<Collection>, hasTeamService: bool, ignored: seq<string>, o: Outcome)
    requires |cs| > 0 && Passes(cs[0], hasTeamService, ignored)
    requires o.Completed? <==> forall i :: 0 <= i < |cs[1..]| ==> Passes(cs[1..][i], hasTeamService, ignored)
    requires !o.Completed? ==> HaltsAt(cs[1..], hasTeamService, ignored, o)
    ensures o.Completed? <==> forall i :: 0 <= i < |cs| ==> Passes(cs[i], hasTeamService, ignored)
    ensures !o.Completed? ==> HaltsAt(cs, hasTeamService, ignored, o)
  {
    var tail := cs[1..];
    assert forall i :: 0 <= i < |tail| ==> tail[i] == cs[i + 1];
    if !o.Completed? {
      var i :| 0 <= i < |tail| && GateOf(tail[i], hasTeamService, ignored) == Halt(o)
               && forall j :: 0 <= j < i ==> Passes(tail[j], hasTeamService, ignored);
      assert GateOf(cs[i + 1], hasTeamService, ignored) == Halt(o);
      forall j | 0 <= j < i + 1
        ensures Passes(cs[j], hasTeamService, ignored)
      {
        if j > 0 {
          assert cs[j] == tail[j - 1];
        }
      }
    } else {
      forall i | 0 <= i < |cs|
        ensures Passes(cs[i], hasTeamService, ignored)
      {
        if i > 0 {
          assert cs[i] == tail[i - 1];
        }
      }
    }
  }

  /**
   Walking two runs of collections back to back: the second run is walked
   from where the first left off, and only if the first completed.
   */
  lemma {:induction false} WalkConcat<A>(cs1: seq<Collection>, cs2: seq<Collection>, hasTeamService: bool, ignored: seq<string>,
                                         skip: (string, A) -> A, visit: (Collection, A) -> A, acc: A)
    ensures Walk(cs1 + cs2, hasTeamService, ignored, skip, visit, acc) ==
      var v := Walk(cs1, hasTeamService, ignored, skip, visit, acc);
      if v.outcome.Completed? then Walk(cs2, hasTeamService, ignored, skip, visit, v.result) else v
    decreases |cs1|
  {
    if |cs1| == 0 {
      assert cs1 + cs2 == cs2;
    } else {
      assert (cs1 + cs2)[0] == cs1[0];
      assert (cs1 + cs2)[1..] == cs1[1..] + cs2;
      match GateOf(cs1[0], hasTeamService, ignored)
      case Halt(o) =>
      case Skip =>
        WalkConcat(cs1[1..], cs2, hasTeamService, ignored, skip, visit, skip(cs1[0].name, acc));
      case Proceed =>
        WalkConcat(cs1[1..], cs2, hasTeamService, ignored, skip, visit, visit(cs1[0], acc));
    }
  }
}

=== FILE: listing.dfy ===
/**
 Listing the users: every collection's "Project Collection Valid Users"
 group is expanded, system and unauthenticated identities are dropped, and
 unique names are gathered once each, in first-seen order, into the user
 cache; a listing that reaches the end sorts the cache.
 */
module Listing {
  import opened Ordering
  import opened Catalog

  /** The account name of the group whose members are the collection's users. */
  const ValidUsersGroup: string := "Project Collection Valid Users"

  /** Identity types whose members never become listed users. */
  const UnauthenticatedIdentityType: string := "Microsoft.TeamFoundation.UnauthenticatedIdentity"
  const SystemIdentityType: string := "Microsoft.TeamFoundation.Identity"

  predicate Excluded(m: Member) {
    m.descriptor.identityType == UnauthenticatedIdentityType || m.descriptor.identityType == SystemIdentityType
  }

  /** The names a run of group members contributes to the listing. */
  ghost function Offered(ms: seq<Member>): set<string> {
    set m | m in ms && !Excluded(m) :: m.uniqueName
  }

  /**
   The names a listing that reaches the end must hold: the unique name of
   every member, not of an excluded type, of the valid-users group of every
   collection that is not ignored.
   */
  ghost function Eligible(cs: seq<Collection>, ignored: seq<string>): set<string> {
    set c, m | c in cs && c.name !in ignored && ValidUsersGroup in c.accounts
                 && m in c.accounts[ValidUsersGroup].members && !Excluded(m) :: m.uniqueName
  }

  lemma OfferedSplit(ms: seq<Member>)
    requires |ms| > 0
    ensures Offered(ms) == Offered(ms[1..]) + (if Excluded(ms[0]) then {} else {ms[0].uniqueName})
  {
    assert ms == [ms[0]] + ms[1..];
  }

  lemma AppendFresh(acc: seq<string>, x: string)
    requires NoDuplicates(acc) && x !in acc
    ensures NoDuplicates(acc + [x])
  {
    var r := acc + [x];
    forall i, j | 0 <= i < j < |r|
      ensures r[i] != r[j]
    {
      if j == |acc| {
        assert r[i] == acc[i];
      } else {
        assert r[i] == acc[i] && r[j] == acc[j];
      }
    }
  }

  /**
   One member of the valid-users group: skipped when of an excluded type,
   its unique name appended only when not already present.
   */
  function Admit(m: Member, acc: seq<string>): (r: seq<string>)
    ensures |acc| <= |r| && r[..|acc|] == acc
    ensures NoDuplicates(acc) ==> NoDuplicates(r)
    ensures forall x :: x in r <==> x in acc || (!Excluded(m) && x == m.uniqueName)
  {
    if Excluded(m) || m.uniqueName in acc then acc
    else
      assert NoDuplicates(acc) ==> NoDuplicates(acc + [m.uniqueName]) by {
        if NoDuplicates(acc) {
          AppendFresh(acc, m.uniqueName);
        }
      }
      acc + [m.uniqueName]
  }

  /** Admits each member in turn. */
  function CollectMembers(ms: seq<Member>, acc: seq<string>): (r: seq<string>)
    ensures |acc| <= |r| && r[..|acc|] == acc
    ensures NoDuplicates(acc) ==> NoDuplicates(r)
    ensures forall x :: x in r <==> x in acc || x in Offered(ms)
    decreases |ms|
  {
    if |ms| == 0 then acc
    else
      var next := Admit(ms[0], acc);
      OfferedSplit(ms);
      var r := CollectMembers(ms[1..], next);
      assert r[..|acc|] == next[..|next|][..|acc|];
      r
  }

  /**
   The work of one collection that passes the gate: its valid-users group
   is expanded, and a collection without one is passed over.
   */
  function CollectFrom(c: Collection, acc: seq<string>): (r: seq<string>)
    ensures ValidUsersGroup !in c.accounts ==> r == acc
    ensures |acc| <= |r| && r[..|acc|] == acc
    ensures NoDuplicates(acc) ==> NoDuplicates(r)
    ensures ValidUsersGroup in c.accounts ==>
      forall x :: x in r <==> x in acc || x in Offered(c.accounts[ValidUsersGroup].members)
  {
    if ValidUsersGroup in c.accounts then CollectMembers(c.accounts[ValidUsersGroup].members, acc) else acc
  }

  /** An ignored collection leaves the accumulation as it is. */
  function Keep(name: string, acc: seq<string>): seq<string> {
    acc
  }

  /** The walk over the collections, from an empty cache, before sorting. */
  function Scan(s: Server, ignored: seq<string>): Visit<seq<string>> {
    Walk(s.collections, s.hasTeamService, ignored, Keep, CollectFrom, [])
  }

  /** The names one collection that passes the gate contributes. */
  ghost function OfferedBy(c: Collection, ignored: seq<string>): set<string> {
    if c.name !in ignored && ValidUsersGroup in c.accounts then Offered(c.accounts[ValidUsersGroup].members) else {}
  }

  lemma EligibleSplit(cs: seq<Collection>, ignored: seq<string>)
    requires |cs| > 0
    ensures Eligible(cs, ignored) == Eligible(cs[1..], ignored) + OfferedBy(cs[0], ignored)
  {
    assert cs == [cs[0]] + cs[1..];
  }

  /** The walk only appends, and never appends a name already present. */
  lemma {:induction false} WalkExtends(cs: seq<Collection>, hasTeamService: bool, ignored: seq<string>, acc: seq<string>)
    requires NoDuplicates(acc)
    ensures var v := Walk(cs, hasTeamService, ignored, Keep, CollectFrom, acc);
      |acc| <= |v.result| && v.result[..|acc|] == acc && NoDuplicates(v.result)
    decreases |cs|
  {
    if |cs| > 0 {
      var next := CollectFrom(cs[0], acc);
      match GateOf(cs[0], hasTeamService, ignored)
      case Halt(o) =>
      case Skip =>
        WalkExtends(cs[1..], hasTeamService, ignored, acc);
      case Proceed =>
        assert Walk(cs, hasTeamService, ignored, Keep, CollectFrom, acc)
          == Walk(cs[1..], hasTeamService, ignored, Keep, CollectFrom, next);
        WalkExtends(cs[1..], hasTeamService, ignored, next);
        var v := Walk(cs[1..], hasTeamService, ignored, Keep, CollectFrom, next);
        assert v.result[..|acc|] == v.result[..|next|][..|acc|];
    }
  }

  /**
   Every gathered name is eligible, and a walk that reaches the end has
   gathered every eligible name.
   */
  lemma {:induction false} WalkCollects(cs: seq<Collection>, hasTeamService: bool, ignored: seq<string>, acc: seq<string>)
    ensures var v := Walk(cs, hasTeamService, ignored, Keep, CollectFrom, acc);
      && (forall x :: x in v.result ==> x in acc || x in Eligible(cs, ignored))
      && (v.outcome.Completed? ==> forall x :: x in acc || x in Eligible(cs, ignored) ==> x in v.result)
    decreases |cs|
  {
    if |cs| > 0 {
      EligibleSplit(cs, ignored);
      var next := CollectFrom(cs[0], acc);
      match GateOf(cs[0], hasTeamService, ignored)
      case Halt(o) =>
      case Skip =>
        WalkCollects(cs[1..], hasTeamService, ignored, acc);
      case Proceed =>
        assert forall x :: x in next <==> x in acc || x in OfferedBy(cs[0], ignored);
        assert Walk(cs, hasTeamService, ignored, Keep, CollectFrom, acc)
          == Walk(cs[1..], hasTeamService, ignored, Keep, CollectFrom, next);
        WalkCollects(cs[1..], hasTeamService, ignored, next);
    }
  }

  /**
   The listing run by the `L` menu key. It starts from an empty cache; a
   walk that reaches the end yields the eligible names sorted; a walk
   stopped by a missing service keeps what it gathered, unsorted.
   */
  function ListUsers(s: Server, ignored: seq<string>): (r: Visit<seq<string>>)
    ensures NoDuplicates(r.result)
    ensures forall x :: x in r.result ==> x in Eligible(s.collections, ignored)
    ensures r.outcome.Completed? <==>
      forall i :: 0 <= i < |s.collections| ==> Passes(s.collections[i], s.hasTeamService, ignored)
    ensures r.outcome.Completed? ==>
      Sorted(r.result) && forall x :: x in Eligible(s.collections, ignored) ==> x in r.result
    ensures !r.outcome.Completed? ==> r == Scan(s, ignored)
  {
    var v := Scan(s, ignored);
    WalkExtends(s.collections, s.hasTeamService, ignored, []);
    WalkCollects(s.collections, s.hasTeamService, ignored, []);
    if v.outcome.Completed? then
      var sorted := Sort(v.result);
      PermutationKeepsNoDuplicates(v.result, sorted);
      assert forall x :: x in sorted <==> x in multiset(v.result);
      Visit(Completed, sorted)
    else v
  }

  /**
   A name every one of whose members is of an excluded type is never
   listed, whatever the walk's outcome.
   */
  lemma ExcludedNeverListed(s: Server, ignored: seq<string>, x: string)
    requires forall c, m ::
               (c in s.collections && ValidUsersGroup in c.accounts
                && m in c.accounts[ValidUsersGroup].members && m.uniqueName == x) ==> Excluded(m)
    ensures x !in ListUsers(s, ignored).result
  {
  }

  /**
   A collection that stops the walk is the last one visited: whatever
   follows it in the catalog has no effect on the listing.
   */
  lemma ListingStopsAtHalt(s: Server, ignored: seq<string>, k: nat)
    requires k < |s.collections| && !Passes(s.collections[k], s.hasTeamService, ignored)
    ensures ListUsers(s, ignored) == ListUsers(Server(s.collections[..k + 1], s.hasTeamService), ignored)
    ensures !ListUsers(s, ignored).outcome.Completed?
  {
    var cs := s.collections;
    var s' := Server(cs[..k + 1], s.hasTeamService);
    assert cs == cs[..k + 1] + cs[k + 1..];
    WalkConcat(cs[..k + 1], cs[k + 1..], s.hasTeamService, ignored, Keep, CollectFrom, []);
    assert cs[..k + 1][k] == cs[k];
    assert !Scan(s', ignored).outcome.Completed?;
  }

  /**
   A listing stopped at collection `k`, the first that does not pass, holds
   exactly the eligible names of the collections before it.
   */
  lemma HaltedListingHoldsEarlierNames(s: Server, ignored: seq<string>, k: nat)
    requires k < |s.collections| && !Passes(s.collections[k], s.hasTeamService, ignored)
    requires forall j :: 0 <= j < k ==> Passes(s.collections[j], s.hasTeamService, ignored)
    ensures !ListUsers(s, ignored).outcome.Completed?
    ensures forall x :: x in ListUsers(s, ignored).result <==> x in Eligible(s.collections[..k], ignored)
  {
    var cs, t := s.collections, s.hasTeamService;
    var pre, post := cs[..k], cs[k..];
    assert cs == pre + post;
    WalkConcat(pre, post, t, ignored, Keep, CollectFrom, []);
    assert forall j :: 0 <= j < |pre| ==> pre[j] == cs[j];
    var v := Walk(pre, t, ignored, Keep, CollectFrom, []);
    assert v.outcome.Completed?;
    assert post[0] == cs[k];
    assert Walk(post, t, ignored, Keep, CollectFrom, v.result).result == v.result;
    WalkCollects(pre, t, ignored, []);
    ListingStopsAtHalt(s, ignored, k);
  }

  /**
   An ignored collection, or one that passes the gate but has no
   valid-users group, contributes nothing: the listing is the same without it.
   */
  lemma SkippedCollectionContributesNothing(s: Server, ignored: seq<string>, k: nat)
    requires k < |s.collections|
    requires s.collections[k].name in ignored
          || (Passes(s.collections[k], s.hasTeamService, ignored) && ValidUsersGroup !in s.collections[k].accounts)
    ensures ListUsers(s, ignored) == ListUsers(Server(s.collections[..k] + s.collections[k + 1..], s.hasTeamService), ignored)
  {
    var cs, t := s.collections, s.hasTeamService;
    var pre, c, post := cs[..k], cs[k], cs[k + 1..];
    assert cs == pre + ([c] + post);
    WalkConcat(pre, [c] + post, t, ignored, Keep, CollectFrom, []);
    WalkConcat(pre, post, t, ignored, Keep, CollectFrom, []);
    var v := Walk(pre, t, ignored, Keep, CollectFrom, []);
    assert ([c] + post)[0] == c && ([c] + post)[1..] == post;
    assert Walk([c] + post, t, ignored, Keep, CollectFrom, v.result) == Walk(post, t, ignored, Keep, CollectFrom, v.result);
    assert Scan(s, ignored) == Scan(Server(pre + post, t), ignored);
  }

  /**
   Two listings that reach the end over servers offering the same eligible
   names produce the same cache: the order of collections and members, and
   repetitions among them, do not matter, and listing an unchanged server
   twice gives the same list.
   */
  lemma CompletedListingIsCanonical(s1: Server, ignored1: seq<string>, s2: Server, ignored2: seq<string>)
    requires ListUsers(s1, ignored1).outcome.Completed? && ListUsers(s2, ignored2).outcome.Completed?
    requires Eligible(s1.collections, ignored1) == Eligible(s2.collections, ignored2)
    ensures ListUsers(s1, ignored1).result == ListUsers(s2, ignored2).result
  {
    SortedDistinctIsCanonical(ListUsers(s1, ignored1).result, ListUsers(s2, ignored2).result);
  }

  /**
   Collection A offers a user "alice" and a system identity, collection B
   a user "bob": the listing is ["alice", "bob"].
   */
  lemma TwoCollectionListing()
    ensures var alice := Member(Descriptor("Microsoft.IdentityModel.Claims.ClaimsIdentity", "a1"), "alice");
            var system := Member(Descriptor(SystemIdentityType, "s1"), "Project Collection Service Accounts");
            var bob := Member(Descriptor("Microsoft.IdentityModel.Claims.ClaimsIdentity", "b1"), "bob");
            var group := Descriptor(SystemIdentityType, "valid");
            var a := Collection("A", true, map[ValidUsersGroup := Identity(group, ValidUsersGroup, [alice, system], [])]);
            var b := Collection("B", true, map[ValidUsersGroup := Identity(group, ValidUsersGroup, [bob], [])]);
            ListUsers(Server([a, b], true), []) == Visit(Completed, ["alice", "bob"])
  {
    var alice := Member(Descriptor("Microsoft.IdentityModel.Claims.ClaimsIdentity", "a1"), "alice");
    var system := Member(Descriptor(SystemIdentityType, "s1"), "Project Collection Service Accounts");
    var bob := Member(Descriptor("Microsoft.IdentityModel.Claims.ClaimsIdentity", "b1"), "bob");
    var group := Descriptor(SystemIdentityType, "valid");
    var a := Collection("A", true, map[ValidUsersGroup := Identity(group, ValidUsersGroup, [alice, system], [])]);
    var b := Collection("B", true, map[ValidUsersGroup := Identity(group, ValidUsersGroup, [bob], [])]);
    assert Excluded(system) && !Excluded(alice) && !Excluded(bob);
    assert [alice, system][1..] == [system] && [a, b][1..] == [b] && [b][1..] == [];
    assert CollectMembers([system], ["alice"]) == ["alice"];
    assert CollectFrom(a, []) == ["alice"];
    assert "bob" !in ["alice"];
    assert Admit(bob, ["alice"]) == ["alice"] + ["bob"] == ["alice", "bob"];
    assert CollectMembers([bob], ["alice"]) == CollectMembers([], ["alice", "bob"]);
    assert CollectFrom(b, ["alice"]) == ["alice", "bob"];
    assert Walk([b], true, [], Keep, CollectFrom, ["alice"]) == Visit(Completed, ["alice", "bob"]);
    assert Scan(Server([a, b], true), []) == Visit(Completed, ["alice", "bob"]);
    assert LessEq("alice", "bob");
    assert ["alice", "bob"][1..] == ["bob"];
    assert Sort(["bob"]) == ["bob"];
    assert Sort(["alice", "bob"]) == ["alice", "bob"];
  }

  /**
   A listing stopped by a missing identity service skips the sort: collection
   A offers "bob" then "alice", collection B has no identity service, and
   the cache is left as ["bob", "alice"].
   */
  lemma HaltedListingIsUnsorted()
    ensures var group := Descriptor(SystemIdentityType, "valid");
            var user := "Microsoft.IdentityModel.Claims.ClaimsIdentity";
            var members := [Member(Descriptor(user, "b1"), "bob"), Member(Descriptor(user, "a1"), "alice")];
            var a := Collection("A", true, map[ValidUsersGroup := Identity(group, ValidUsersGroup, members, [])]);
            var b := Collection("B", false, map[]);
            var r := ListUsers(Server([a, b], true), []);
            r == Visit(IdentityServiceMissing("B"), ["bob", "alice"]) && !Sorted(r.result)
  {
    var group := Descriptor(SystemIdentityType, "valid");
    var user := "Microsoft.IdentityModel.Claims.ClaimsIdentity";
    var bob, alice := Member(Descriptor(user, "b1"), "bob"), Member(Descriptor(user, "a1"), "alice");
    var a := Collection("A", true, map[ValidUsersGroup := Identity(group, ValidUsersGroup, [bob, alice], [])]);
    var b := Collection("B", false, map[]);
    assert !Excluded(bob) && !Excluded(alice);
    assert [bob, alice][1..] == [alice] && [a, b][1..] == [b];
    assert "alice" !in ["bob"];
    assert Admit(bob, []) == ["bob"];
    assert Admit(alice, ["bob"]) == ["bob"] + ["alice"] == ["bob", "alice"];
    assert CollectMembers([alice], ["bob"]) == CollectMembers([], ["bob", "alice"]);
    assert CollectFrom(a, []) == ["bob", "alice"];
    assert Walk([b], true, [], Keep, CollectFrom, ["bob", "alice"]) == Visit(IdentityServiceMissing("B"), ["bob", "alice"]);
    assert Scan(Server([a, b], true), []) == Visit(IdentityServiceMissing("B"), ["bob", "alice"]);
    var r := ["bob", "alice"];
    assert !LessEq(r[0], r[1]);
  }
}

=== FILE: ordering.dfy ===
/**
 The string order the user list is sorted by, and the list shapes the user
 cache keeps: sorted, free of duplicates. The order is the ordinal
 lexicographic order on characters (a proper prefix sorts first).
 */
module Ordering {

  /** `a` sorts no later than `b`. */
  predicate LessEq(a: string, b: string)
    decreases |a|
  {
    |a| == 0 || (|b| > 0 && (a[0] < b[0] || (a[0] == b[0] && LessEq(a[1..], b[1..]))))
  }

  lemma {:induction false} LessEqReflexive(a: string)
    ensures LessEq(a, a)
    decreases |a|
  {
    if |a| > 0 {
      LessEqReflexive(a[1..]);
    }
  }

  lemma {:induction false} LessEqAntisymmetric(a: string, b: string)
    requires LessEq(a, b) && LessEq(b, a)
    ensures a == b
    decreases |a|
  {
    if |a| > 0 {
      LessEqAntisymmetric(a[1..], b[1..]);
      assert a == [a[0]] + a[1..];
      assert b == [b[0]] + b[1..];
    }
  }

  lemma {:induction false} LessEqTransitive(a: string, b: string, c: string)
    requires LessEq(a, b) && LessEq(b, c)
    ensures LessEq(a, c)
    decreases |a|
  {
    if |a| > 0 && a[0] == b[0] && b[0] == c[0] {
      LessEqTransitive(a[1..], b[1..], c[1..]);
    }
  }

  lemma {:induction false} LessEqTotal(a: string, b: string)
    ensures LessEq(a, b) || LessEq(b, a)
    decreases |a|
  {
    if |a| > 0 && |b| > 0 && a[0] == b[0] {
      LessEqTotal(a[1..], b[1..]);
    }
  }

  /** Every earlier entry sorts no later than every later one. */
  ghost predicate Sorted(s: seq<string>) {
    forall i, j :: 0 <= i < j < |s| ==> LessEq(s[i], s[j])
  }

  /** No name appears twice. */
  ghost predicate NoDuplicates(s: seq<string>) {
    forall i, j :: 0 <= i < j < |s| ==> s[i] != s[j]
  }

  /** Places `x` in front of the first entry it sorts no later than. */
  function Insert(x: string, s: seq<string>): (r: seq<string>)
    requires Sorted(s)
    ensures Sorted(r)
    ensures multiset(r) == multiset(s) + multiset{x}
    decreases |s|
  {
    if |s| == 0 then [x]
    else if LessEq(x, s[0]) then
      InsertFrontSorted(x, s);
      [x] + s
    else
      LessEqTotal(x, s[0]);
      var t := Insert(x, s[1..]);
      assert s == [s[0]] + s[1..];
      HeadBelowAll(s[0], s[1..], x, t);
      [s[0]] + t
  }

  lemma InsertFrontSorted(x: string, s: seq<string>)
    requires Sorted(s) && |s| > 0 && LessEq(x, s[0])
    ensures Sorted([x] + s)
  {
    forall j | 0 < j < |s| + 1
      ensures LessEq(x, ([x] + s)[j])
    {
      if j > 1 {
        LessEqTransitive(x, s[0], s[j - 1]);
      }
    }
  }

  lemma HeadBelowAll(h: string, s: seq<string>, x: string, t: seq<string>)
    requires Sorted([h] + s) && Sorted(t) && LessEq(h, x)
    requires multiset(t) == multiset(s) + multiset{x}
    ensures Sorted([h] + t)
  {
    forall j | 0 <= j < |t|
      ensures LessEq(h, t[j])
    {
      assert t[j] in multiset(t);
      if t[j] != x {
        assert t[j] in multiset(s);
        var k :| 0 <= k < |s| && s[k] == t[j];
        assert ([h] + s)[0] == h && ([h] + s)[k + 1] == s[k];
        assert LessEq(([h] + s)[0], ([h] + s)[k + 1]);
      }
    }
  }

  /** Insertion sort: the model of ordering the cached names ascending. */
  function Sort(s: seq<string>): (r: seq<string>)
    ensures Sorted(r)
    ensures multiset(r) == multiset(s)
    decreases |s|
  {
    if |s| == 0 then []
    else
      assert s == [s[0]] + s[1..];
      Insert(s[0], Sort(s[1..]))
  }

  lemma {:induction false} NoDuplicatesCounts(s: seq<string>)
    requires NoDuplicates(s)
    ensures forall x :: multiset(s)[x] <= 1
    decreases |s|
  {
    if |s| > 0 {
      var t := s[1..];
      assert s == [s[0]] + t;
      assert NoDuplicates(t) by {
        forall i, j | 0 <= i < j < |t| ensures t[i] != t[j] {
          assert t[i] == s[i + 1] && t[j] == s[j + 1];
        }
      }
      NoDuplicatesCounts(t);
      forall k | 0 <= k < |t|
        ensures t[k] != s[0]
      {
        assert t[k] == s[k + 1];
      }
      assert s[0] !in t;
    }
  }

  /** A rearrangement of a list without duplicates has none either. */
  lemma PermutationKeepsNoDuplicates(a: seq<string>, b: seq<string>)
    requires multiset(a) == multiset(b) && NoDuplicates(a)
    ensures NoDuplicates(b)
  {
    NoDuplicatesCounts(a);
    forall i, j | 0 <= i < j < |b|
      ensures b[i] != b[j]
    {
      assert b == b[..i] + [b[i]] + b[i + 1..j] + [b[j]] + b[j + 1..];
      var pair := multiset{b[i]} + multiset{b[j]};
      assert pair <= multiset(b);
      assert pair[b[i]] == if b[i] == b[j] then 2 else 1;
      assert multiset(b)[b[i]] <= 1;
    }
  }

  /**
   Two sorted duplicate-free lists holding the same names are the same list:
   a finished listing is determined by the set of names alone.
   */
  lemma {:induction false} SortedDistinctIsCanonical(a: seq<string>, b: seq<string>)
    requires Sorted(a) && NoDuplicates(a) && Sorted(b) && NoDuplicates(b)
    requires forall x :: x in a <==> x in b
    ensures a == b
    decreases |a|
  {
    if |a| == 0 {
      forall x
        ensures x !in multiset(b)
      {
        assert x !in a;
      }
      assert multiset(b) == multiset{};
      assert |b| == |multiset(b)| == 0;
    } else {
      assert a[0] in a && b[0] in b;
      var i :| 0 <= i < |b| && b[i] == a[0];
      var j :| 0 <= j < |a| && a[j] == b[0];
      if i > 0 {
        assert LessEq(b[0], b[i]);
      } else {
        LessEqReflexive(b[0]);
      }
      if j > 0 {
        assert LessEq(a[0], a[j]);
      } else {
        LessEqReflexive(a[0]);
      }
      LessEqAntisymmetric(a[0], b[0]);
      var a', b' := a[1..], b[1..];
      forall x
        ensures x in a' <==> x in b'
      {
        if x in a' {
          var k :| 0 <= k < |a'| && a'[k] == x;
          assert a[k + 1] == x && x != a[0];
          assert x in b && x != b[0];
          var m :| 0 <= m < |b| && b[m] == x;
          assert b'[m - 1] == x;
        }
        if x in b' {
          var k :| 0 <= k < |b'| && b'[k] == x;
          assert b[k + 1] == x && x != b[0];
          assert x in a && x != a[0];
          var m :| 0 <= m < |a| && a[m] == x;
          assert a'[m - 1] == x;
        }
      }
      assert Sorted(a') && NoDuplicates(a') by {
        forall i, j | 0 <= i < j < |a'| ensures LessEq(a'[i], a'[j]) && a'[i] != a'[j] {
          assert a'[i] == a[i + 1] && a'[j] == a[j + 1];
        }
      }
      assert Sorted(b') && NoDuplicates(b') by {
        forall i, j | 0 <= i < j < |b'| ensures LessEq(b'[i], b'[j]) && b'[i] != b'[j] {
          assert b'[i] == b[i + 1] && b'[j] == b[j + 1];
        }
      }
      SortedDistinctIsCanonical(a', b');
      assert a == [a[0]] + a' && b == [b[0]] + b';
    }
  }
}

=== FILE: removal.dfy ===
/**
 Removing a user from every group, in every collection. An empty name
 removes nothing and queries nothing; otherwise each collection that passes
 the gate is asked for the user by account name. Where the user is absent
 the collection is logged and skipped; where present, removal from every
 group the user belongs to is attempted, and a removal that throws is
 logged without stopping the others.
 */
module Removal {
  import opened Catalog

  /** One line of the removal log. */
  datatype Event =
    | CollectionIgnored(collection: string)
    | UserNotFound(collection: string)
    | RemovedFrom(collection: string, group: Descriptor)
    | NotRemoved(collection: string, group: Descriptor, reason: string)

  predicate IsAttempt(e: Event) {
    e.RemovedFrom? || e.NotRemoved?
  }

  /** The result of a removal request. */
  datatype Removal = NothingToRemove | Swept(outcome: Outcome, trace: seq<Event>)

  /** The attempt to remove the user from one group, its failure caught and logged. */
  function AttemptOne(collection: string, g: Group): (e: Event)
    ensures IsAttempt(e) && e.collection == collection && e.group == g.descriptor
    ensures e.RemovedFrom? <==> g.removal.Succeeds?
    ensures e.NotRemoved? ==> e.reason == g.removal.message
  {
    match g.removal
    case Succeeds => RemovedFrom(collection, g.descriptor)
    case Throws(message) => NotRemoved(collection, g.descriptor, message)
  }

  /** One attempt per group, in order: no failure cuts the run short. */
  function Attempts(collection: string, groups: seq<Group>): (r: seq<Event>)
    ensures |r| == |groups|
    ensures forall i :: 0 <= i < |groups| ==> r[i] == AttemptOne(collection, groups[i])
    decreases |groups|
  {
    if |groups| == 0 then []
    else [AttemptOne(collection, groups[0])] + Attempts(collection, groups[1..])
  }

  /**
   What one collection that passes the gate logs: one attempt per group the
   user belongs to, or, where the account is unknown, that the user was not found.
   */
  function CollectionEvents(user: string, c: Collection): (r: seq<Event>)
    ensures user !in c.accounts ==> r == [UserNotFound(c.name)]
    ensures user in c.accounts ==>
      |r| == |c.accounts[user].memberOf| && forall e :: e in r ==> IsAttempt(e) && e.collection == c.name
    ensures user in c.accounts ==>
      forall i :: 0 <= i < |r| ==> r[i] == AttemptOne(c.name, c.accounts[user].memberOf[i])
  {
    if user in c.accounts then Attempts(c.name, c.accounts[user].memberOf)
    else [UserNotFound(c.name)]
  }

  function NoteIgnored(name: string, trace: seq<Event>): seq<Event> {
    trace + [CollectionIgnored(name)]
  }

  function Visitor(user: string): (Collection, seq<Event>) -> seq<Event> {
    (c: Collection, trace: seq<Event>) => trace + CollectionEvents(user, c)
  }

  /** The removal of `user` from every collection of `s`, as a walk over the collections. */
  function RemoveTarget(s: Server, ignored: seq<string>, user: string): (r: Removal)
    ensures r.NothingToRemove? <==> user == ""
    ensures r.Swept? ==>
      (r.outcome.Completed? <==> forall i :: 0 <= i < |s.collections| ==> Passes(s.collections[i], s.hasTeamService, ignored))
  {
    if user == "" then NothingToRemove
    else
      var v := Walk(s.collections, s.hasTeamService, ignored, NoteIgnored, Visitor(user), []);
      Swept(v.outcome, v.result)
  }

  /** The inner loop: every group the user belongs to, each attempt on its own. */
  method AttemptAll(collection: string, groups: seq<Group>) returns (events: seq<Event>)
    ensures |events| == |groups|
    ensures events == Attempts(collection, groups)
  {
    events := [];
    var j := 0;
    while j < |groups|
      invariant 0 <= j <= |groups|
      invariant |events| == j
      invariant forall k :: 0 <= k < j ==> events[k] == AttemptOne(collection, groups[k])
    {
      var g := groups[j];
      match g.removal {
        case Succeeds =>
          events := events + [RemovedFrom(collection, g.descriptor)];
        case Throws(message) =>
          events := events + [NotRemoved(collection, g.descriptor, message)];
      }
      j := j + 1;
    }
    assert events == Attempts(collection, groups);
  }

  /**
   The removal loop as the program runs it: collections in order, and within
   a collection where the user is found, every group in turn.
   */
  method RemoveUser(s: Server, ignored: seq<string>, user: string) returns (r: Removal)
    ensures r.NothingToRemove? <==> user == ""
    ensures r == RemoveTarget(s, ignored, user)
  {
    if user == "" {
      return NothingToRemove;
    }
    var cs := s.collections;
    var visit := Visitor(user);
    var trace: seq<Event> := [];
    var i := 0;
    while i < |cs|
      invariant 0 <= i <= |cs|
      invariant Walk(cs, s.hasTeamService, ignored, NoteIgnored, visit, [])
             == Walk(cs[i..], s.hasTeamService, ignored, NoteIgnored, visit, trace)
    {
      var c := cs[i];
      assert cs[i..][0] == c && cs[i..][1..] == cs[i + 1..];
      if c.name in ignored {
        trace := trace + [CollectionIgnored(c.name)];
        i := i + 1;
        continue;
      }
      if !c.hasIdentityService {
        return Swept(IdentityServiceMissing(c.name), trace);
      }
      if !s.hasTeamService {
        return Swept(TeamServiceMissing(c.name), trace);
      }
      if user in c.accounts {
        var events := AttemptAll(c.name, c.accounts[user].memberOf);
        trace := trace + events;
      } else {
        trace := trace + [UserNotFound(c.name)];
      }
      i := i + 1;
    }
    return Swept(Completed, trace);
  }

  /** The sweep only appends to the log. */
  lemma {:induction false} SweepExtends(cs: seq<Collection>, hasTeamService: bool, ignored: seq<string>, user: string, acc: seq<Event>)
    ensures var v := Walk(cs, hasTeamService, ignored, NoteIgnored, Visitor(user), acc);
      |acc| <= |v.result| && v.result[..|acc|] == acc
    decreases |cs|
  {
    if |cs| > 0 {
      var next := match GateOf(cs[0], hasTeamService, ignored)
        case Skip => NoteIgnored(cs[0].name, acc)
        case Halt(_) => acc
        case Proceed => Visitor(user)(cs[0], acc);
      if !GateOf(cs[0], hasTeamService, ignored).Halt? {
        SweepExtends(cs[1..], hasTeamService, ignored, user, next);
        var v := Walk(cs[1..], hasTeamService, ignored, NoteIgnored, Visitor(user), next);
        assert v.result[..|acc|] == v.result[..|next|][..|acc|];
      }
    }
  }

  /**
   In every collection the sweep reaches where the user is found, removal
   from every group the user belongs to is attempted and logged, whatever
   became of the attempts before it.
   */
  lemma EveryGroupAttempted(s: Server, ignored: seq<string>, user: string, k: nat, i: nat)
    requires user != "" && k < |s.collections|
    requires forall j :: 0 <= j <= k ==> Passes(s.collections[j], s.hasTeamService, ignored)
    requires s.collections[k].name !in ignored && user in s.collections[k].accounts
    requires i < |s.collections[k].accounts[user].memberOf|
    ensures AttemptOne(s.collections[k].name, s.collections[k].accounts[user].memberOf[i]) in RemoveTarget(s, ignored, user).trace
  {
    var cs, t, visit := s.collections, s.hasTeamService, Visitor(user);
    var c := cs[k];
    var pre, post := cs[..k], cs[k..];
    assert cs == pre + post;
    WalkConcat(pre, post, t, ignored, NoteIgnored, visit, []);
    var v := Walk(pre, t, ignored, NoteIgnored, visit, []);
    assert forall j :: 0 <= j < |pre| ==> pre[j] == cs[j];
    assert v.outcome.Completed?;
    assert post[0] == c && post[1..] == cs[k + 1..];
    var events := CollectionEvents(user, c);
    var next := v.result + events;
    assert Walk(post, t, ignored, NoteIgnored, visit, v.result) == Walk(cs[k + 1..], t, ignored, NoteIgnored, visit, next);
    SweepExtends(cs[k + 1..], t, ignored, user, next);
    var trace := RemoveTarget(s, ignored, user).trace;
    assert trace[..|next|] == next;
    assert trace[|v.result| + i] == next[|v.result| + i] == events[i];
  }

  /**
   Every ignored collection the sweep reaches is logged as ignored, and the
   sweep goes on past it.
   */
  lemma IgnoredCollectionLogged(s: Server, ignored: seq<string>, user: string, k: nat)
    requires user != "" && k < |s.collections|
    requires forall j :: 0 <= j < k ==> Passes(s.collections[j], s.hasTeamService, ignored)
    requires s.collections[k].name in ignored
    ensures CollectionIgnored(s.collections[k].name) in RemoveTarget(s, ignored, user).trace
  {
    var cs, t, visit := s.collections, s.hasTeamService, Visitor(user);
    var pre, post := cs[..k], cs[k..];
    assert cs == pre + post;
    WalkConcat(pre, post, t, ignored, NoteIgnored, visit, []);
    var v := Walk(pre, t, ignored, NoteIgnored, visit, []);
    assert forall j :: 0 <= j < |pre| ==> pre[j] == cs[j];
    assert v.outcome.Completed?;
    assert post[0] == cs[k] && post[1..] == cs[k + 1..];
    var next := NoteIgnored(cs[k].name, v.result);
    assert Walk(post, t, ignored, NoteIgnored, visit, v.result) == Walk(cs[k + 1..], t, ignored, NoteIgnored, visit, next);
    SweepExtends(cs[k + 1..], t, ignored, user, next);
    var trace := RemoveTarget(s, ignored, user).trace;
    assert trace[..|next|] == next;
    assert trace[|v.result|] == next[|v.result|];
  }

  /**
   `e` is the attempt to remove `user` from one of its groups in a collection
   the sweep reaches, does not ignore, and finds the user in.
   */
  ghost predicate AttemptFor(cs: seq<Collection>, hasTeamService: bool, ignored: seq<string>, user: string, e: Event) {
    exists k, i :: 0 <= k < |cs| && (forall j :: 0 <= j <= k ==> Passes(cs[j], hasTeamService, ignored))
                   && cs[k].name !in ignored && user in cs[k].accounts
                   && 0 <= i < |cs[k].accounts[user].memberOf| && e == AttemptOne(cs[k].name, cs[k].accounts[user].memberOf[i])
  }

  lemma AttemptForTail(cs: seq<Collection>, hasTeamService: bool, ignored: seq<string>, user: string, e: Event)
    requires |cs| > 0 && Passes(cs[0], hasTeamService, ignored)
    requires AttemptFor(cs[1..], hasTeamService, ignored, user, e)
    ensures AttemptFor(cs, hasTeamService, ignored, user, e)
  {
    var tail := cs[1..];
    var k, i :| 0 <= k < |tail| && (forall j :: 0 <= j <= k ==> Passes(tail[j], hasTeamService, ignored))
                && tail[k].name !in ignored && user in tail[k].accounts
                && 0 <= i < |tail[k].accounts[user].memberOf| && e == AttemptOne(tail[k].name, tail[k].accounts[user].memberOf[i]);
    assert tail[k] == cs[k + 1];
    forall j | 0 <= j <= k + 1
      ensures Passes(cs[j], hasTeamService, ignored)
    {
      if j > 0 {
        assert cs[j] == tail[j - 1];
      }
    }
  }

  /** Every attempt the sweep adds to the log is one `AttemptFor` describes. */
  lemma {:induction false} SweepAttemptsOnlyUsersGroups(cs: seq<Collection>, hasTeamService: bool, ignored: seq<string>,
                                                         user: string, acc: seq<Event>)
    ensures forall e :: e in Walk(cs, hasTeamService, ignored, NoteIgnored, Visitor(user), acc).result && IsAttempt(e) ==>
      e in acc || AttemptFor(cs, hasTeamService, ignored, user, e)
    decreases |cs|
  {
    if |cs| > 0 {
      var c := cs[0];
      match GateOf(c, hasTeamService, ignored)
      case Halt(_) =>
      case Skip =>
        var next := NoteIgnored(c.name, acc);
        SweepAttemptsOnlyUsersGroups(cs[1..], hasTeamService, ignored, user, next);
        forall e | e in Walk(cs, hasTeamService, ignored, NoteIgnored, Visitor(user), acc).result && IsAttempt(e)
          ensures e in acc || AttemptFor(cs, hasTeamService, ignored, user, e)
        {
          if !(e in next) {
            AttemptForTail(cs, hasTeamService, ignored, user, e);
          }
        }
      case Proceed =>
        var events := CollectionEvents(user, c);
        var next := acc + events;
        SweepAttemptsOnlyUsersGroups(cs[1..], hasTeamService, ignored, user, next);
        forall e | e in Walk(cs, hasTeamService, ignored, NoteIgnored, Visitor(user), acc).result && IsAttempt(e)
          ensures e in acc || AttemptFor(cs, hasTeamService, ignored, user, e)
        {
          if e in events {
            var i :| 0 <= i < |events| && events[i] == e;
            assert user in c.accounts;
            assert e == AttemptOne(c.name, c.accounts[user].memberOf[i]);
            assert forall j :: 0 <= j <= 0 ==> Passes(cs[j], hasTeamService, ignored);
          } else if !(e in next) {
            AttemptForTail(cs, hasTeamService, ignored, user, e);
          }
        }
    }
  }

  /**
   The converse of `EveryGroupAttempted`: every attempt in the log is the
   removal of the user from one of its groups, in a collection the sweep
   reached, did not ignore, and found the user in.
   */
  lemma OnlyUsersGroupsAttempted(s: Server, ignored: seq<string>, user: string)
    requires user != ""
    ensures forall e :: e in RemoveTarget(s, ignored, user).trace && IsAttempt(e) ==>
      AttemptFor(s.collections, s.hasTeamService, ignored, user, e)
  {
    SweepAttemptsOnlyUsersGroups(s.collections, s.hasTeamService, ignored, user, []);
  }

  /** Where the user is in no collection, the sweep attempts no removal at all. */
  lemma {:induction false} AbsentUserAttemptsNothing(cs: seq<Collection>, hasTeamService: bool, ignored: seq<string>, user: string, acc: seq<Event>)
    requires forall c :: c in cs ==> user !in c.accounts
    requires forall e :: e in acc ==> !IsAttempt(e)
    ensures forall e :: e in Walk(cs, hasTeamService, ignored, NoteIgnored, Visitor(user), acc).result ==> !IsAttempt(e)
    decreases |cs|
  {
    if |cs| > 0 {
      assert cs[0] in cs;
      assert forall c :: c in cs[1..] ==> c in cs;
      match GateOf(cs[0], hasTeamService, ignored)
      case Halt(_) =>
      case Skip =>
        AbsentUserAttemptsNothing(cs[1..], hasTeamService, ignored, user, NoteIgnored(cs[0].name, acc));
      case Proceed =>
        AbsentUserAttemptsNothing(cs[1..], hasTeamService, ignored, user, Visitor(user)(cs[0], acc));
    }
  }

  /**
   Collection A, where "alice" belongs to G1 (removal succeeds) and G2
   (removal throws), then collection B, where she is unknown: both
   attempts are made and logged, and B is still visited.
   */
  lemma FailureInOneGroupContinues()
    ensures var g1, g2 := Descriptor("Microsoft.TeamFoundation.Identity", "G1"), Descriptor("Microsoft.TeamFoundation.Identity", "G2");
            var alice := Identity(Descriptor("Microsoft.IdentityModel.Claims.ClaimsIdentity", "a1"), "alice", [],
                                  [Group(g1, Succeeds), Group(g2, Throws("Access denied"))]);
            var a := Collection("A", true, map["alice" := alice]);
            var b := Collection("B", true, map[]);
            RemoveTarget(Server([a, b], true), [], "alice")
              == Swept(Completed, [RemovedFrom("A", g1), NotRemoved("A", g2, "Access denied"), UserNotFound("B")])
  {
    var g1, g2 := Descriptor("Microsoft.TeamFoundation.Identity", "G1"), Descriptor("Microsoft.TeamFoundation.Identity", "G2");
    var groups := [Group(g1, Succeeds), Group(g2, Throws("Access denied"))];
    var alice := Identity(Descriptor("Microsoft.IdentityModel.Claims.ClaimsIdentity", "a1"), "alice", [], groups);
    var a := Collection("A", true, map["alice" := alice]);
    var b := Collection("B", true, map[]);
    assert Attempts("A", groups) == [RemovedFrom("A", g1), NotRemoved("A", g2, "Access denied")];
    assert [a, b][1..] == [b] && [b][1..] == [];
    assert CollectionEvents("alice", a) == Attempts("A", groups);
    assert CollectionEvents("alice", b) == [UserNotFound("B")];
    assert Walk([a, b], true, [], NoteIgnored, Visitor("alice"), [])
        == Walk([b], true, [], NoteIgnored, Visitor("alice"), [] + Attempts("A", groups));
    assert [] + Attempts("A", groups) == Attempts("A", groups);
    assert Walk([b], true, [], NoteIgnored, Visitor("alice"), Attempts("A", groups))
        == Visit(Completed, Attempts("A", groups) + [UserNotFound("B")]);
  }

  /** An attempt read as if it had succeeded: which group, in which collection. */
  function Shape(e: Event): Event {
    if e.NotRemoved? then RemovedFrom(e.collection, e.group) else e
  }

  function Shapes(trace: seq<Event>): seq<Event> {
    seq(|trace|, i requires 0 <= i < |trace| => Shape(trace[i]))
  }

  /** The same server, except that every removal from a group would succeed. */
  function Unfailing(s: Server): Server {
    s.(collections := UnfailingAll(s.collections))
  }

  function UnfailingAll(cs: seq<Collection>): seq<Collection> {
    seq(|cs|, i requires 0 <= i < |cs| => UnfailingCollection(cs[i]))
  }

  function UnfailingCollection(c: Collection): Collection {
    c.(accounts := map k | k in c.accounts :: UnfailingIdentity(c.accounts[k]))
  }

  function UnfailingIdentity(id: Identity): Identity {
    id.(memberOf := seq(|id.memberOf|, i requires 0 <= i < |id.memberOf| => Group(id.memberOf[i].descriptor, Succeeds)))
  }

  lemma CollectionEventsShape(user: string, c: Collection)
    ensures CollectionEvents(user, UnfailingCollection(c)) == Shapes(CollectionEvents(user, c))
  {
    if user in c.accounts {
      var gs := c.accounts[user].memberOf;
      var u := UnfailingCollection(c).accounts[user].memberOf;
      assert |u| == |gs|;
      var lhs, rhs := Attempts(c.name, u), Shapes(Attempts(c.name, gs));
      assert |lhs| == |rhs|;
      forall i | 0 <= i < |lhs|
        ensures lhs[i] == rhs[i]
      {
        assert lhs[i] == AttemptOne(c.name, u[i]);
        assert rhs[i] == Shape(AttemptOne(c.name, gs[i]));
      }
    }
  }

  /** One collection of the sweep, read with every removal succeeding. */
  lemma StepShape(c: Collection, hasTeamService: bool, ignored: seq<string>, user: string, acc: seq<Event>)
    ensures GateOf(UnfailingCollection(c), hasTeamService, ignored) == GateOf(c, hasTeamService, ignored)
    ensures NoteIgnored(UnfailingCollection(c).name, Shapes(acc)) == Shapes(NoteIgnored(c.name, acc))
    ensures Visitor(user)(UnfailingCollection(c), Shapes(acc)) == Shapes(Visitor(user)(c, acc))
  {
    CollectionEventsShape(user, c);
    var events := CollectionEvents(user, c);
    assert Shapes(acc + events) == Shapes(acc) + Shapes(events);
    assert Shapes(acc + [CollectionIgnored(c.name)]) == Shapes(acc) + [CollectionIgnored(c.name)];
  }

  lemma {:induction false} SweepShape(cs: seq<Collection>, hasTeamService: bool, ignored: seq<string>, user: string, acc: seq<Event>)
    ensures var v := Walk(cs, hasTeamService, ignored, NoteIgnored, Visitor(user), acc);
            var w := Walk(UnfailingAll(cs), hasTeamService, ignored, NoteIgnored, Visitor(user), Shapes(acc));
            w.outcome == v.outcome && w.result == Shapes(v.result)
    decreases |cs|
  {
    var us := UnfailingAll(cs);
    if |cs| > 0 {
      assert us[0] == UnfailingCollection(cs[0]);
      assert us[1..] == UnfailingAll(cs[1..]);
      StepShape(cs[0], hasTeamService, ignored, user, acc);
      match GateOf(cs[0], hasTeamService, ignored)
      case Halt(_) =>
      case Skip =>
        SweepShape(cs[1..], hasTeamService, ignored, user, NoteIgnored(cs[0].name, acc));
      case Proceed =>
        SweepShape(cs[1..], hasTeamService, ignored, user, Visitor(user)(cs[0], acc));
    }
  }

  /**
   A failed removal never aborts the rest: the removals attempted, their
   order, and how the sweep ends are the same as if every removal had
   succeeded; only the failed entries of the log differ.
   */
  lemma FailuresDoNotAbort(s: Server, ignored: seq<string>, user: string)
    ensures var r, u := RemoveTarget(s, ignored, user), RemoveTarget(Unfailing(s), ignored, user);
            r.Swept? == u.Swept? && (r.Swept? ==> u.outcome == r.outcome && u.trace == Shapes(r.trace))
  {
    if user != "" {
      SweepShape(s.collections, s.hasTeamService, ignored, user, []);
      assert Shapes([]) == [];
    }
  }
}

=== FILE: selector.dfy ===
/**
 The arrow-key scroller that picks a user from the cache. The index starts
 unselected at -1; up and right move forward, down and left move back, both
 wrapping around the cache; escape cancels; enter confirms the name shown.
 After every key, including the first, the name at the index is read and
 shown, so a first key that is neither an arrow nor escape reads index -1.
 */
module Selector {

  /** The letter of a letter key, as the console names it: upper case whatever the shift state. */
  type KeyLetter = c: char | 'A' <= c <= 'Z' witness 'A'

  /** A console key: a letter key, one of the keys the scroller reacts to, or any other key. */
  datatype Key = Letter(c: KeyLetter) | UpArrow | RightArrow | DownArrow | LeftArrow | Enter | Escape | Other

  predicate IsForward(k: Key) {
    k.UpArrow? || k.RightArrow?
  }

  predicate IsBackward(k: Key) {
    k.DownArrow? || k.LeftArrow?
  }

  predicate IsArrow(k: Key) {
    IsForward(k) || IsBackward(k)
  }

  /** The index after a forward key: one further, wrapping past the last entry to 0. */
  function Forward(index: int, count: nat): (r: int)
    ensures count > 0 && -1 <= index < count ==> 0 <= r < count && r == (index + 1) % count
  {
    if index + 1 > count - 1 then 0 else index + 1
  }

  /** The index after a backward key: one back, wrapping below 0 to the last entry. */
  function Backward(index: int, count: nat): (r: int)
    ensures count > 0 && -1 <= index < count ==> 0 <= r < count
    ensures count > 0 && 0 <= index < count ==> r == (index - 1) % count
    ensures count > 0 && index == -1 ==> r == count - 1
  {
    if index - 1 < 0 then count - 1 else index - 1
  }

  /** On a selected entry, forward and backward undo each other. */
  lemma ForwardBackwardInverse(index: int, count: nat)
    requires 0 <= index < count
    ensures Backward(Forward(index, count), count) == index
    ensures Forward(Backward(index, count), count) == index
  {
  }

  /** Where the scroller is after one key. */
  datatype Selection =
    | Showing(index: int)      // still scrolling, the entry at `index` on screen
    | Chosen(name: string)     // enter confirmed this name
    | Cancelled                // escape: back to the removal-mode prompt
    | OutOfRange(index: int)   // the name at `index` was read but no such entry exists

  /** One key in the scroller over the cached `users`, at `index`. */
  function Press(users: seq<string>, index: int, k: Key): (r: Selection)
    ensures r.Cancelled? <==> k.Escape?
    ensures r.Showing? ==> 0 <= r.index < |users|
    ensures r.Chosen? <==> k.Enter? && 0 <= index < |users|
    ensures r.Chosen? ==> r.name == users[index]
    ensures |users| > 0 && -1 <= index < |users| ==>
      (r.OutOfRange? <==> index == -1 && !k.Escape? && !IsArrow(k))
    ensures |users| > 0 && -1 <= index < |users| && IsArrow(k) ==> r.Showing?
    ensures r.OutOfRange? && !IsArrow(k) ==> r.index == index
    ensures |users| > 0 && -1 <= index < |users| && IsForward(k) ==> r == Showing(Forward(index, |users|))
    ensures |users| > 0 && -1 <= index < |users| && IsBackward(k) ==> r == Showing(Backward(index, |users|))
    ensures 0 <= index < |users| && !IsArrow(k) && !k.Escape? && !k.Enter? ==> r == Showing(index)
  {
    if k.Escape? then Cancelled
    else
      var next :=
        if IsForward(k) then Forward(index, |users|)
        else if IsBackward(k) then Backward(index, |users|)
        else index;
      if !(0 <= next < |users|) then OutOfRange(next)
      else if k.Enter? then Chosen(users[next])
      else Showing(next)
  }

  /**
   Feeds keys to the scroller until one cancels, confirms or reads out of
   range; with keys left over it is still `Showing`.
   */
  function Run(users: seq<string>, index: int, keys: seq<Key>): (r: Selection)
    ensures r.Chosen? ==> r.name in users
    ensures r.Showing? ==> r.index == index || 0 <= r.index < |users|
    ensures |users| > 0 && 0 <= index < |users| ==> !r.OutOfRange?
    ensures |users| > 0 && -1 <= index < |users| && r.OutOfRange? ==> r.index == -1
    decreases |keys|
  {
    if |keys| == 0 then Showing(index)
    else
      match Press(users, index, keys[0])
      case Showing(j) => Run(users, j, keys[1..])
      case other => other
  }

  /** A first key that is neither an arrow nor escape reads the entry at -1. */
  lemma FirstKeyMustMove(users: seq<string>, keys: seq<Key>)
    requires |users| > 0 && |keys| > 0 && !IsArrow(keys[0]) && !keys[0].Escape?
    ensures Run(users, -1, keys) == OutOfRange(-1)
  {
  }

  /** After an arrow first, no key sequence reads out of range. */
  lemma ArrowFirstStaysInRange(users: seq<string>, keys: seq<Key>)
    requires |users| > 0 && |keys| > 0 && IsArrow(keys[0])
    ensures !Run(users, -1, keys).OutOfRange?
  {
  }

  function Repeat(k: Key, n: nat): (r: seq<Key>)
    ensures |r| == n && forall i :: 0 <= i < n ==> r[i] == k
  {
    if n == 0 then [] else [k] + Repeat(k, n - 1)
  }

  /**
   `n` forward keys, at most one full round, from a selected entry land `n`
   entries further on, wrapping once past the end.
   */
  lemma {:induction false} ForwardCycles(users: seq<string>, index: int, n: nat)
    requires 0 <= index < |users| && n <= |users|
    ensures Run(users, index, Repeat(UpArrow, n))
         == Showing(if index + n < |users| then index + n else index + n - |users|)
    decreases n
  {
    if n > 0 {
      var keys := Repeat(UpArrow, n);
      assert keys[1..] == Repeat(UpArrow, n - 1);
      ForwardCycles(users, Forward(index, |users|), n - 1);
    }
  }

  /** Cycling forward through the whole cache returns to the entry it started from. */
  lemma FullCycleReturns(users: seq<string>, index: int)
    requires 0 <= index < |users|
    ensures Run(users, index, Repeat(UpArrow, |users|)) == Showing(index)
  {
    ForwardCycles(users, index, |users|);
  }
}

=== FILE: session.dfy ===
/**
 The interactive session: the main menu (`L` list, `R` remove, `Q` quit),
 the removal-mode prompt (`T` type, `S` select, `R` return), the scroller,
 and the pauses after a missing service. Key presses and typed lines are
 two input streams. The program re-enters its menu by recursion, and the
 return key of the removal prompt opens a new menu inside the one that is
 still waiting: `pending` counts those, and each one costs an extra `Q`.
 */
module Session {
  import opened Catalog
  import opened Listing
  import opened Removal
  import opened Selector
  import opened Ordering

  /** Where the session waits for input, or how it ended. */
  datatype Mode =
    | Menu                 // main menu: L, R, Q
    | ChooseMethod         // removal prompt: T, S, R; other keys are read again
    | Selecting(index: int)
    | Typing               // waiting for a typed user name
    | Paused               // a missing service was reported; any key continues
    | Quit
    | Crashed(index: int)  // the scroller read the cache at a missing index

  /** What the session did on the server's behalf. */
  datatype Activity = Listed(listing: Visit<seq<string>>) | RemovalRequested(target: string, removal: Removal)

  datatype Session = Session(mode: Mode, pending: nat, cache: seq<string>, history: seq<Activity>)

  /** The server and the names of the collections to leave alone. */
  datatype Env = Env(server: Server, ignored: seq<string>)

  const Start: Session := Session(Menu, 0, [], [])

  /** The scroller only runs over a non-empty cache, at an index from -1 up. */
  predicate Valid(s: Session) {
    s.mode.Selecting? ==> |s.cache| > 0 && -1 <= s.mode.index < |s.cache|
  }

  /** A removal request for `name`, after which the menu comes back (after a pause, if a service was missing). */
  function Remove(env: Env, s: Session, name: string): (r: Session)
    ensures r.cache == s.cache && r.pending == s.pending
    ensures r.history == s.history + [RemovalRequested(name, RemoveTarget(env.server, env.ignored, name))]
    ensures r.mode.Paused? <==> name != "" && !RemoveTarget(env.server, env.ignored, name).outcome.Completed?
    ensures r.mode.Menu? || r.mode.Paused?
  {
    var rm := RemoveTarget(env.server, env.ignored, name);
    var mode := if rm.Swept? && !rm.outcome.Completed? then Paused else Menu;
    Session(mode, s.pending, s.cache, s.history + [RemovalRequested(name, rm)])
  }

  /** One key press. */
  function OnKey(env: Env, s: Session, k: Key): (r: Session)
    ensures s.mode.Quit? || s.mode.Crashed? || s.mode.Typing? ==> r == s
    ensures Valid(s) ==> Valid(r)
    ensures NoDuplicates(s.cache) ==> NoDuplicates(r.cache)
    ensures r.cache != s.cache ==> s.mode.Menu? && k == Letter('L')
    ensures s.mode.Menu? && k == Letter('L') ==> r.cache == ListUsers(env.server, env.ignored).result
    ensures r.mode.Quit? && !s.mode.Quit? ==> s.mode.Menu? && s.pending == 0 && k == Letter('Q')
    ensures r.pending > s.pending ==> s.mode.ChooseMethod? && k == Letter('R') && r.pending == s.pending + 1
    ensures Valid(s) && r.mode.Crashed? && !s.mode.Crashed? ==> s.mode == Selecting(-1) && r.mode == Crashed(-1)
    ensures s.mode.Menu? && k == Letter('R') ==> r.mode == ChooseMethod
    ensures s.mode.Menu? && k == Letter('L') ==> (r.mode.Paused? <==> !ListUsers(env.server, env.ignored).outcome.Completed?)
    ensures s.mode.ChooseMethod? && k == Letter('T') ==> r.mode == Typing
    ensures s.mode.ChooseMethod? && k == Letter('S') ==> r.mode == if |s.cache| == 0 then ChooseMethod else Selecting(-1)
    ensures s.mode.Selecting? && k == Escape ==> r.mode == ChooseMethod
    ensures s.mode.Paused? ==> r.mode == Menu
    ensures Valid(s) && s.mode.Selecting? && 0 <= s.mode.index && k == Enter ==>
      r.history == s.history + [RemovalRequested(s.cache[s.mode.index], RemoveTarget(env.server, env.ignored, s.cache[s.mode.index]))]
    ensures Valid(s) && s.mode.Selecting? && 0 <= s.mode.index && k == Enter ==>
      (r.mode.Paused? <==> s.cache[s.mode.index] != "" && !RemoveTarget(env.server, env.ignored, s.cache[s.mode.index]).outcome.Completed?)
    ensures Valid(s) && s.mode.Selecting? && IsForward(k) ==> r.mode == Selecting(Forward(s.mode.index, |s.cache|))
    ensures Valid(s) && s.mode.Selecting? && IsBackward(k) ==> r.mode == Selecting(Backward(s.mode.index, |s.cache|))
    ensures s.mode.Menu? && k != Letter('Q') && k != Letter('L') && k != Letter('R') ==> r == s
    ensures s.mode.ChooseMethod? && k != Letter('T') && k != Letter('S') && k != Letter('R') ==> r == s
    ensures s.mode.ChooseMethod? && k == Letter('R') ==> r.mode == Menu && r.pending == s.pending + 1
    ensures s.mode.Menu? && k == Letter('L') ==> r.history == s.history + [Listed(ListUsers(env.server, env.ignored))]
  {
    match s.mode
    case Menu =>
      if k == Letter('Q') then
        if s.pending == 0 then s.(mode := Quit) else s.(pending := s.pending - 1)
      else if k == Letter('L') then
        var l := ListUsers(env.server, env.ignored);
        Session(if l.outcome.Completed? then Menu else Paused, s.pending, l.result, s.history + [Listed(l)])
      else if k == Letter('R') then s.(mode := ChooseMethod)
      else s
    case ChooseMethod =>
      if k == Letter('R') then s.(mode := Menu, pending := s.pending + 1)
      else if k == Letter('T') then s.(mode := Typing)
      else if k == Letter('S') then (if |s.cache| == 0 then s else s.(mode := Selecting(-1)))
      else s
    case Selecting(index) =>
      (match Press(s.cache, index, k)
       case Showing(j) => s.(mode := Selecting(j))
       case Cancelled => s.(mode := ChooseMethod)
       case OutOfRange(j) => s.(mode := Crashed(j))
       case Chosen(name) => Remove(env, s, name))
    case Typing => s
    case Paused => s.(mode := Menu)
    case Quit => s
    case Crashed(_) => s
  }

  /** One typed line: the name to remove, verbatim. */
  function OnLine(env: Env, s: Session, line: string): (r: Session)
    ensures !s.mode.Typing? ==> r == s
    ensures s.mode.Typing? && line == "" ==> r == s.(mode := Menu, history := s.history + [RemovalRequested("", NothingToRemove)])
    ensures s.mode.Typing? ==> r.cache == s.cache && r.pending == s.pending
                               && r.history == s.history + [RemovalRequested(line, RemoveTarget(env.server, env.ignored, line))]
    ensures s.mode.Typing? ==> (r.mode.Paused? <==> line != "" && !RemoveTarget(env.server, env.ignored, line).outcome.Completed?)
  {
    if s.mode.Typing? then Remove(env, s, line) else s
  }

  /** Runs the session until it quits, crashes, or the input it waits for runs out. */
  function Run(env: Env, s: Session, keys: seq<Key>, lines: seq<string>): (r: Session)
    ensures Valid(s) ==> Valid(r)
    ensures NoDuplicates(s.cache) ==> NoDuplicates(r.cache)
    ensures s.mode.Quit? || s.mode.Crashed? ==> r == s
    ensures Valid(s) && r.mode.Crashed? && !s.mode.Crashed? ==> r.mode == Crashed(-1)
    decreases |keys| + |lines|
  {
    if s.mode.Quit? || s.mode.Crashed? then s
    else if s.mode.Typing? then
      if |lines| == 0 then s else Run(env, OnLine(env, s, lines[0]), keys, lines[1..])
    else if |keys| == 0 then s
    else Run(env, OnKey(env, s, keys[0]), keys[1..], lines)
  }

  /**
   From the main menu with `pending` menus still open, each `Q` closes one;
   only the `pending + 1`-th quits.
   */
  lemma {:induction false} QuitClosesOneMenu(env: Env, s: Session, n: nat)
    requires s.mode.Menu? && n <= s.pending + 1
    ensures Run(env, s, Repeat(Letter('Q'), n), [])
         == if n == s.pending + 1 then s.(mode := Quit, pending := 0) else s.(pending := s.pending - n)
    decreases n
  {
    if n > 0 {
      var keys := Repeat(Letter('Q'), n);
      assert keys[1..] == Repeat(Letter('Q'), n - 1);
      var next := OnKey(env, s, Letter('Q'));
      if s.pending == 0 {
        assert Run(env, next, keys[1..], []) == next;
      } else {
        QuitClosesOneMenu(env, next, n - 1);
      }
    }
  }

  /**
   Returning from the removal prompt nests a menu: after `R`, `R` one `Q`
   leaves the session at the menu, and it takes a second `Q` to quit.
   */
  lemma ReturnNeedsExtraQuit(env: Env)
    ensures Run(env, Start, [Letter('R'), Letter('R'), Letter('Q')], []).mode == Menu
    ensures Run(env, Start, [Letter('R'), Letter('R'), Letter('Q'), Letter('Q')], []).mode == Quit
  {
    var nested := Session(Menu, 1, [], []);
    assert Run(env, Start, [Letter('R'), Letter('R'), Letter('Q')], []) == Run(env, nested, [Letter('Q')], []);
    assert Run(env, Start, [Letter('R'), Letter('R'), Letter('Q'), Letter('Q')], [])
        == Run(env, nested, [Letter('Q'), Letter('Q')], []);
    assert Repeat(Letter('Q'), 1) == [Letter('Q')];
    assert Repeat(Letter('Q'), 2) == [Letter('Q'), Letter('Q')];
    QuitClosesOneMenu(env, nested, 1);
    QuitClosesOneMenu(env, nested, 2);
  }

  /** Pressing enter first in the scroller reads the cache at -1, and the session ends there. */
  lemma EnterFirstCrashes(env: Env, s: Session)
    requires s.mode.ChooseMethod? && |s.cache| > 0
    ensures Run(env, s, [Letter('S'), Enter], []).mode == Crashed(-1)
  {
    var selecting := s.(mode := Selecting(-1));
    assert Run(env, s, [Letter('S'), Enter], []) == Run(env, selecting, [Enter], []);
  }
}
